=== FILE: README.md ===
# Nuclear spin dephasing under repeated entangling attempts: a Dafny model

This project models the two algorithmic parts of a small Python simulation of a
nuclear (carbon) spin that loses coherence while a coupled NV electron spin is
driven through repeated entangling attempts.

- **Parameter store** (`src/simulation.py`). A nested configuration dict
  (category → name → value) is indexed once into a flat map from each leaf name
  to its route of keys. `get_param` and `set_param` resolve a flat name through
  that map and walk the nested dict: the reader recursively, the writer with a
  loop. The constructor applies optional overrides through `set_param`.
  Modules `ParamTree`, `ParamIndex` and `ParamStore`.
- **Monte Carlo engine** (`src/QMC_simulation.py`). For every cell (attempt ×
  repetition), uniform draws classify the electron trajectory into boolean
  masks. The masks weight a per-cell nuclear phase. The phases are summed
  cumulatively down each repetition column, turned into a fidelity
  `(mean cos + 1) / 2` per attempt, and queried for the attempt whose fidelity is
  nearest a target. Modules `NvState`, `NuclearPhase`, `Fidelity` and `Engine`.
  `EngineErrors` and `Outcomes` hold the error values.

Everything random or transcendental is an input. That covers the three uniform
draw matrices, the repump-phase matrix (built with a logarithm in the source),
one standard normal draw per repetition, the constant 2π, and the cosine (any
function with values in [-1, 1]). Python exceptions become `Err` values.
Floating-point numbers are Dafny `real`s.

Points where the code behaves differently from what its names or comments suggest:

- Duplicate leaf names are not rejected. The entry of the leaf visited last
  overwrites earlier ones. `ParamIndex.IndexKeepsLastVisited` states this.
- A projection "flips" when its draw exceeds `pflip`. So `pflip = 0` flips every
  positive draw, and only `pflip ≥ 1` removes flips (`NvState.FlipBoundaries`).
- The five masks used for the phase are not mutually exclusive. A cell that
  starts in +1 always repumps as well. What does hold is stated in
  `NvState.ClassifyCell` and `NuclearPhase.Coherent`.
- A missing parameter is not detected at construction. It fails the run when
  `get_param` reads it (`Engine.ReadRunParams`).
- Non-positive attempt or repetition counts are not checked by the code. With
  no attempts, numpy's `average` divides the element count by the (zero)
  result size and raises; the model returns `Err(NoAttempts)`. Attempts with no
  repetitions average over nothing: numpy returns NaN, and the model returns
  `Err(NoRepetitions)`.
- `find_attempts_from_fidelity` promises the number of attempts closest to the
  target, but returns the 0-based position of the nearest fidelity. Entry k of
  the curve is the fidelity after k + 1 attempts (the cumulative sum runs over
  attempts 0..k), so the attempt count is one more than the value returned
  (`Fidelity.FindAttemptsFromFidelity`, `Fidelity.FidelityCurve`).

## Model

| member | source | states |
|---|---|---|
| ParamTree.Assign | src/simulation.py:51 | `d[k] = c` makes `k` map to `c`; every other key keeps its position and value; an existing key is replaced in place (same length), an absent key is appended at the end (one entry longer, `k` last); distinct keys stay distinct |
| ParamTree.ReaderMatchesWalk | src/simulation.py:42-50 | the recursive reader (recursing on all but the last key) reads exactly what the writer's front-to-back loop reaches, errors included, on every non-empty route |
| ParamTree.WriterFailsLikeLoop | src/simulation.py:47-51 | the writer fails exactly when the loop over all keys but the last fails (with the same error) or ends on a number that cannot take the final assignment |
| ParamTree.ReadAfterWrite | src/simulation.py:42-51 | after a successful write of `v` at a route, reading that route yields the leaf `v` |
| ParamTree.PutFrame | src/simulation.py:47-51 | a write changes nothing outside its route: every route that is not a prefix of it reads as before, if the written route held a leaf or the other route does not pass through it |
| ParamTree.PutKeepsShape | src/simulation.py:47-51 | writing a number over a leaf keeps the shape of the whole nested dict: the same keys in the same order at every level |
| ParamIndex.BuildIndexIsRecord | src/simulation.py:53-72 | the depth-first indexing helper equals a reference fold that records each visited leaf route under its last key, and it fails exactly when a leaf is reached under the empty name |
| ParamIndex.RecordLastWins | src/simulation.py:60-63 | a name is in the map iff some leaf route ends in it, and then it maps to the last such route in visit order |
| ParamIndex.IndexSound | src/simulation.py:60-69 | every indexed route is non-empty, ends with the name itself, and reads a number through the reader |
| ParamIndex.IndexComplete | src/simulation.py:60-69 | every route that reads a number has its last key indexed; with unique leaf names, indexed with exactly that route |
| ParamIndex.IndexKeepsLastVisited | src/simulation.py:57-62 | with duplicate names, the entry is the route of the leaf of that name visited last |
| ParamIndex.BuildFailsOnUnnamedLeaf | src/simulation.py:61-68 | building fails, with the iteration error, iff some number sits under the empty name (a root that is a number included) |
| ParamIndex.LeafPathsReachLeaves | src/simulation.py:60-69 | each listed leaf route extends the start route and reaches a number |
| ParamIndex.LeafReachedIsListed | src/simulation.py:65-69 | each route that reaches a number is listed by the walk |
| ParamIndex.BuildIndexFollowsShape | src/simulation.py:53-72 | two dicts of the same shape get the same map: the map depends on keys, not values |
| ParamStore.Create | src/simulation.py:18-19 | loading the defaults succeeds iff indexing succeeds, and leaves a valid store over the defaults |
| ParamStore.Get | src/simulation.py:32-34 | an unindexed name fails with an unknown-parameter error; on a valid store an indexed name reads a number |
| ParamStore.Set | src/simulation.py:39-40 | an unindexed name fails with an unknown-parameter error; on a valid store an indexed name succeeds; the flat map is never changed |
| ParamStore.GetAfterSet | src/simulation.py:32-51 | after `set_param(name, v)`, `get_param(name)` returns `v` |
| ParamStore.SetKeepsShape | src/simulation.py:39-51 | a set keeps the dict's shape, so the flat map is still the one indexing would build and the store stays valid |
| ParamStore.SetFrame | src/simulation.py:47-51 | a set changes only its leaf: every route not a prefix of the name's route reads as before |
| ParamStore.SetLeavesOtherNames | src/simulation.py:32-51 | setting one name leaves what every other name reads unchanged |
| ParamStore.LastOverride | src/simulation.py:24-26 | the value of the last override of a name, or none when the name is not overridden |
| ParamStore.OverrideStep | src/simulation.py:24-26 | one turn of the override loop on an indexed name keeps the store valid over the same map and makes it reflect one more override |
| ParamStore.Construct | src/simulation.py:9-26 | construction succeeds iff indexing succeeds and every override names an indexed parameter; then the store is valid, its map is the defaults' map, and each name reads its last override or else its default; a dict that cannot be indexed fails with the iteration error, otherwise failure is the unknown-parameter error of the first override naming an unindexed parameter |
| NvState.ClassifyCell | src/QMC_simulation.py:40-58 | initial states are exactly one of 0/+1/-1 (given a non-negative infidelity or a draw below 1); the microwave outcomes exclude each other and each needs a failed pulse on an electron not in +1; under the partition, a failed pulse on an electron not in +1 ends in 0 exactly when one of "started in 0" and "flipped" holds, and in -1 otherwise; a +1 cell always repumps |
| NvState.InitialStateSlices | src/QMC_simulation.py:40-42 | with a non-negative infidelity `e`, the draw selects 0 below `1-e`, -1 in `[1-e, 1-e/2)` and +1 from `1-e/2` on, in both directions |
| NvState.NegativeInfidelityOverlaps | src/QMC_simulation.py:40-41 | without those guards the draw `1-e/2` puts a cell in 0 and +1 at once |
| NvState.NoRepumpExactly | src/QMC_simulation.py:45-58 | a cell skips the repump iff the pulse did not fail and it started in 0 and flipped, or started in -1 and did not flip |
| NvState.PerfectPulseNeverFails | src/QMC_simulation.py:45-55 | with zero microwave infidelity and a draw in [0,1) the pulse never fails and neither microwave outcome occurs |
| NvState.PerfectInitAlwaysZero | src/QMC_simulation.py:40-42 | with zero init infidelity and a draw in [0,1) the cell is in 0, not +1 or -1 |
| NvState.FlipBoundaries | src/QMC_simulation.py:48 | a draw in [0,1) never flips when `pflip ≥ 1`; with `pflip = 0` it flips iff it is positive |
| NvState.PerfectDevices | src/QMC_simulation.py:40-58 | with perfect initialisation and pulses, every cell of the matrices is in 0, takes no microwave branch, and repumps iff its projection did not flip |
| NuclearPhase.Constants | src/QMC_simulation.py:68-80 | the -1 free-evolution phase is the negated +1 one; the -1 decoupling phase is the negated 0 one; the +1 decoupling phase is -3 times the 0 one |
| NuclearPhase.CellPhase | src/QMC_simulation.py:86-94 | for a coherent cell, the mask-weighted sum is the initial state's free-evolution phase, plus the phase of the microwave outcome that occurred, plus the repump term when repumped, times 2π; a cell with no mask set gets 0 |
| NuclearPhase.JitterShiftsWholeColumn | src/QMC_simulation.py:83-92 | changing the per-repetition jitter shifts every repumped attempt of a column by the same amount, set by that column alone, and leaves other attempts unchanged |
| NuclearPhase.StaticRepumpJitterAsWritten | src/QMC_simulation.py:154-171 | the source's jitter: `repetitions` copies of the offset when the width is not positive, otherwise the undefined-name error |
| NuclearPhase.JitterAsWrittenFailsWhenRandom | src/QMC_simulation.py:167-171 | a jitter width of 1 makes the source raise |
| NuclearPhase.StaticRepumpJitter | src/QMC_simulation.py:154-171 | one entry per repetition: the offset when the width is not positive; otherwise a non-negative value equal to ± (offset + width · standard normal draw) |
| NuclearPhase.JitterAgreesWithSource | src/QMC_simulation.py:165-166 | the corrected jitter equals the source's wherever the source does not raise |
| Fidelity.CumSum | src/QMC_simulation.py:108 | entry (k, j) is the sum of column j over attempts 0..k, with the shape of the input |
| Fidelity.CumSumColumnsIndependent | src/QMC_simulation.py:108 | a column's running sums depend only on that column |
| Fidelity.SumCosBounds | src/QMC_simulation.py:109-110 | the sum of n cosines lies in [-n, n] |
| Fidelity.RowFidelity | src/QMC_simulation.py:109-110 | the fidelity of one attempt lies in [0, 1] |
| Fidelity.FidelityCurve | src/QMC_simulation.py:96-110 | the curve exists iff there is at least one attempt and one repetition (zero attempts raise in numpy's average, zero repetitions give NaN), then has one value per attempt, each in [0, 1]: attempt k's value is (mean over repetitions j of cos(sum of column j's phases over attempts 0..k) + 1)/2 |
| Fidelity.AlignedPhasesGiveExtremeFidelity | src/QMC_simulation.py:109-110 | if all cosines of an attempt are 1 the fidelity is 1; if all are -1 it is 0 |
| Fidelity.FindAttemptsFromFidelity | src/QMC_simulation.py:112-122 | an empty curve fails; otherwise the result is an index with the least distance to the target, strictly less than at every earlier index (first occurrence), with no order assumed. The result is the 0-based position, as `argmin` returns it; the fidelity there is the one after position + 1 attempts, so it is one less than the attempt count the docstring promises |
| Engine.GetNumbers | src/QMC_simulation.py:35-37 | reading names in order either yields one number per name, each the one `get_param` reads, or the error of the first unreadable name |
| Engine.GetNumbersOnValidStore | src/simulation.py:32-34 | on a valid store, the reads succeed iff every name is indexed, and otherwise fail with an unknown-parameter error of one of them |
| Engine.ReadRunParams | src/QMC_simulation.py:35-163 | on a valid store the run's parameters are readable iff every required name is indexed, and then each field holds that name's stored number |
| Engine.Run | src/QMC_simulation.py:13-24 | a run (jitter sized by the repetitions) on a valid store succeeds iff every required name is indexed and there is at least one attempt and one repetition, and then yields one fidelity per attempt, each in [0, 1], whatever the draws; the curve is the fidelity reduction of the phase matrix built from the stored parameters and the draws |
| Engine.GetNumbersPrefix | src/simulation.py:32-34 | reading a prefix of the names fails with the error of reading them all, or yields a prefix of their values |
| Engine.ReadsBeforeJitter | src/QMC_simulation.py:83-84 | the jitter is drawn before `_repump_phase` reads `average_repump_time`: the names read up to then succeed iff each reads, the last is the jitter width, and a failure among them is the whole run's failure |
| Engine.RunAsWritten | src/QMC_simulation.py:13-24 | the run as written: it succeeds iff the corrected run succeeds and the jitter width is not positive, then equals it; once every name up to the jitter width reads, a positive width raises the undefined-name error |
| Engine.PerfectDevicesOnlyRepumpsDephase | src/QMC_simulation.py:40-94 | with perfect initialisation and pulses and no jitter, an attempt adds phase only if its projection did not flip, and then exactly (−repump phase − coupling · offset) · 2π |

## Left out

- Random number generation (`np.random.rand`, `np.random.normal`): the draws are inputs with values in [0, 1) and standard normal draws respectively.
- `_repump_phase` (a logarithm of the repump draws): its matrix is an opaque input, so `average_repump_time` is read but not used.
- The cosine and 2π: the cosine is any function with values in [-1, 1]; 2π is an opaque real.
- Floating point: all arithmetic is on exact reals. NaN, infinities and rounding are not modelled.
- The draw matrices' shape is taken as given. The model does not tie it to the stored `entangling_attempts` and `repetitions`, which are only read so that their absence fails the run.
- Values stored in the config are numbers (`real`). Setting a dict as a value, which would change the dict's shape and stale the map, is not modelled. Keys are strings only, and Python's int/bool/float distinction is not kept.
- Engine.Run: draws the static jitter sized by `repetitions` (the corrected branch), while the source raises NameError for any positive `repump_time_jitter`; `Engine.RunAsWritten` models the run as written, including that error.
- ParamTree.Assign: places a new key last, which Python 2's hash-ordered dict does not promise (a new key lands at a hash-determined position, and a resize may reorder the others); the store never inserts a key, since `set_param` writes only routes that already exist.
- ParamStore.Construct: requires a dict with distinct keys at every level, which every Python dict satisfies.
- Statistical convergence toward the analytic curve is not modelled (`analytic_model.py`, a closed-form comparator).
- `parameters.py` and `src/parameters.py` (constant data), `reload` of the parameter module, the `abc` metaclass, `get_params` (returns the dict itself) and the abstract `get_carbon_state_fidelity`.
- The intermediate matrices kept as instance attributes, and `find_attempts_from_fidelity` before any run (the curve attribute is still `None`). The query takes the curve as an argument.

## Findings

| source | as written | input that shows it | evidently intended | confidence | as-written member | corrected member |
|---|---|---|---|---|---|---|
| src/QMC_simulation.py:169-171 | the random jitter branch passes `size=length`, a name defined nowhere, so it raises NameError | `repump_time_jitter = 1.0` (any positive width) | draw the absolute value of one normal draw (mean `repump_time_offset`, scale `repump_time_jitter`) per repetition, `size=repetitions` | high; not executed | NuclearPhase.JitterAsWrittenFailsWhenRandom | NuclearPhase.StaticRepumpJitter |

=== FILE: engine.dfy ===
/** One Monte Carlo run (`compute_fidelity_from_scratch`, src/QMC_simulation.py):
    read the parameters from the store, classify every cell, assemble the phase
    matrix, accumulate it and reduce it to the fidelity curve. The uniform draw
    matrices, the repump-phase matrix, the standard normal draws, 2*pi and the
    cosine are inputs. */
module Engine {
  import opened Outcomes
  import opened ParamTree
  import opened ParamIndex
  import opened ParamStore
  import opened EngineErrors
  import opened NvState
  import opened NuclearPhase
  import opened Fidelity

  const EntanglingAttempts: Key := "entangling_attempts"
  const Repetitions: Key := "repetitions"
  const InitInfidelity: Key := "init_infidelity"
  const MwInfidelity: Key := "mw_infidelity"
  const Pflip: Key := "pflip"
  const LarmorPeriod: Key := "larmor_period"
  const LarmorOrder: Key := "larmor_order"
  const FreeEvolutionTime: Key := "T"
  const Coupling: Key := "coupling"
  const RepumpTimeOffset: Key := "repump_time_offset"
  const RepumpTimeJitter: Key := "repump_time_jitter"
  const AverageRepumpTime: Key := "average_repump_time"

  /** The names one run reads, in the order the source first reads them. */
  const RequiredNames: seq<Key> := [
    EntanglingAttempts, Repetitions,
    InitInfidelity, MwInfidelity, Pflip,
    LarmorPeriod, LarmorOrder, FreeEvolutionTime, Coupling,
    RepumpTimeOffset, RepumpTimeJitter, AverageRepumpTime
  ]

  /** `get_param` where a number is expected. */
  function GetNumber(s: Store, name: Key): Result<real, StoreError> {
    match Get(s, name)
    case Err(e) => Err(e)
    case Ok(Leaf(x)) => Ok(x)
    case Ok(Branch(_)) => Err(NotAScalar)
  }

  /** Reads the names in order; the first one that cannot be read ends the run. */
  function GetNumbers(s: Store, names: seq<Key>): (r: Result<seq<real>, StoreError>)
    ensures r.Ok? ==> |r.value| == |names| && forall i :: 0 <= i < |names| ==> GetNumber(s, names[i]) == Ok(r.value[i])
    ensures r.Err? ==> exists i :: && 0 <= i < |names| && GetNumber(s, names[i]) == Err(r.error)
                                   && forall j :: 0 <= j < i ==> GetNumber(s, names[j]).Ok?
    decreases |names|
  {
    if |names| == 0 then Ok([])
    else
      match GetNumber(s, names[0])
      case Err(e) => Err(e)
      case Ok(x) =>
        match GetNumbers(s, names[1..])
        case Err(e) =>
          Err(e)
        case Ok(xs) => Ok([x] + xs)
  }

  /** On a valid store a name reads as a number exactly when it is indexed. */
  lemma {:induction false} GetNumbersOnValidStore(s: Store, names: seq<Key>)
    ensures Valid(s) ==> (GetNumbers(s, names).Ok? <==> forall i :: 0 <= i < |names| ==> names[i] in s.index)
    ensures Valid(s) && GetNumbers(s, names).Err? ==>
      exists i :: 0 <= i < |names| && GetNumbers(s, names).error == UnknownParameter(names[i])
    decreases |names|
  {
    if Valid(s) && |names| > 0 {
      GetNumbersOnValidStore(s, names[1..]);
      if GetNumbers(s, names).Err? && names[0] in s.index {
        var i :| 0 <= i < |names[1..]| && GetNumbers(s, names).error == UnknownParameter(names[1..][i]);
        assert names[1..][i] == names[i + 1];
      }
      if forall i :: 0 <= i < |names[1..]| ==> names[1..][i] in s.index {
        assert forall i :: 1 <= i < |names| ==> names[i] == names[1..][i - 1];
      }
    }
  }

  datatype RunParams = RunParams(nv: NvParams, phase: PhaseParams, repumpOffset: real, repumpJitter: real)

  /** `name` holds the number `x` in the store. */
  ghost predicate Holds(s: Store, name: Key, x: real) {
    Get(s, name) == Ok(Leaf(x))
  }

  /** On a valid store the run's parameters can be read exactly when every
      required name is indexed, and then they are the stored values. */
  function ReadRunParams(s: Store): (r: Result<RunParams, EngineError>)
    ensures Valid(s) ==> (r.Ok? <==> forall i :: 0 <= i < |RequiredNames| ==> RequiredNames[i] in s.index)
    ensures Valid(s) && r.Err? ==> exists i :: 0 <= i < |RequiredNames| && r.error == ParamError(UnknownParameter(RequiredNames[i]))
    ensures r.Ok? ==>
      && Holds(s, InitInfidelity, r.value.nv.initInfidelity)
      && Holds(s, MwInfidelity, r.value.nv.mwInfidelity)
      && Holds(s, Pflip, r.value.nv.pflip)
      && Holds(s, Coupling, r.value.phase.coupling)
      && Holds(s, FreeEvolutionTime, r.value.phase.t)
      && Holds(s, LarmorPeriod, r.value.phase.larmorPeriod)
      && Holds(s, LarmorOrder, r.value.phase.larmorOrder)
      && Holds(s, RepumpTimeOffset, r.value.repumpOffset)
      && Holds(s, RepumpTimeJitter, r.value.repumpJitter)
  {
    GetNumbersOnValidStore(s, RequiredNames);
    match GetNumbers(s, RequiredNames)
    case Err(e) => Err(ParamError(e))
    case Ok(v) =>
      ReadValues(s, v);
      Ok(RunParams(NvParams(v[2], v[3], v[4]), PhaseParams(v[8], v[7], v[5], v[6]), v[9], v[10]))
  }

  lemma ReadValues(s: Store, v: seq<real>)
    requires GetNumbers(s, RequiredNames) == Ok(v)
    ensures |v| == |RequiredNames|
    ensures Holds(s, InitInfidelity, v[2]) && Holds(s, MwInfidelity, v[3]) && Holds(s, Pflip, v[4])
    ensures Holds(s, LarmorPeriod, v[5]) && Holds(s, LarmorOrder, v[6]) && Holds(s, FreeEvolutionTime, v[7])
    ensures Holds(s, Coupling, v[8]) && Holds(s, RepumpTimeOffset, v[9]) && Holds(s, RepumpTimeJitter, v[10])
  {
    assert forall i :: 0 <= i < |RequiredNames| ==> GetNumber(s, RequiredNames[i]) == Ok(v[i]);
  }

  /** Inputs that stand for the source's random numbers and transcendental
      functions: three uniform draw matrices of shape attempts x repetitions,
      the repump-phase matrix of the same shape, one standard normal draw per
      repetition, the constant 2*pi and the cosine. */
  datatype RunInputs = RunInputs(draws: Draws, repumpPhases: seq<seq<real>>, normals: seq<real>, twoPi: real, cos: real -> real)

  ghost predicate InputsFit(inp: RunInputs, rows: nat, cols: nat) {
    && DrawsShape(inp.draws, rows, cols)
    && IsShape(inp.repumpPhases, rows, cols)
    && |inp.normals| == cols
    && CosineRange(inp.cos)
  }

  /** The phase matrix of one run from its parameters. */
  function RunPhases(p: RunParams, inp: RunInputs, rows: nat, cols: nat): (m: seq<seq<real>>)
    requires InputsFit(inp, rows, cols)
    ensures IsShape(m, rows, cols)
  {
    var cells := Classify(p.nv, inp.draws, rows, cols);
    var jitter := StaticRepumpJitter(p.repumpOffset, p.repumpJitter, cols, inp.normals);
    PhaseMatrix(p.phase, cells, inp.repumpPhases, jitter, inp.twoPi, rows, cols)
  }

  /** The whole run, with the static jitter sized by the repetitions. It
      fails only when a parameter cannot be read or when there are no attempts
      or no repetitions; otherwise the curve has one value per attempt, each
      in [0, 1], whatever the draws. */
  function Run(s: Store, inp: RunInputs, rows: nat, cols: nat): (f: Result<seq<real>, EngineError>)
    requires InputsFit(inp, rows, cols)
    ensures Valid(s) ==>
      (f.Ok? <==> (forall i :: 0 <= i < |RequiredNames| ==> RequiredNames[i] in s.index) && cols > 0 && rows > 0)
    ensures f.Ok? ==> |f.value| == rows && forall k :: 0 <= k < rows ==> 0.0 <= f.value[k] <= 1.0
    // the curve is the fidelity reduction of the phases the stored parameters
    // and the draws give
    ensures f.Ok? ==> ReadRunParams(s).Ok? && f == FidelityCurve(RunPhases(ReadRunParams(s).value, inp, rows, cols), cols, inp.cos)
  {
    match ReadRunParams(s)
    case Err(e) => Err(e)
    case Ok(p) => FidelityCurve(RunPhases(p, inp, rows, cols), cols, inp.cos)
  }

  /** Reading a prefix of the names fails with the same error as reading them
      all, or yields a prefix of their values. */
  lemma {:induction false} GetNumbersPrefix(s: Store, names: seq<Key>, n: nat)
    requires n <= |names|
    ensures GetNumbers(s, names[..n]).Err? ==> GetNumbers(s, names) == GetNumbers(s, names[..n])
    ensures GetNumbers(s, names).Ok? ==> GetNumbers(s, names[..n]) == Ok(GetNumbers(s, names).value[..n])
    decreases n
  {
    if n > 0 {
      assert names[..n][0] == names[0];
      assert names[..n][1..] == names[1..][..n - 1];
      GetNumbersPrefix(s, names[1..], n - 1);
      var all := GetNumbers(s, names);
      if all.Ok? {
        assert all.value[..n] == [all.value[0]] + all.value[1..][..n - 1];
      }
    }
  }

  /** The names read before the static jitter is drawn: all but
      `average_repump_time`, which `_repump_phase` reads afterwards. */
  const NamesBeforeJitter: seq<Key> := RequiredNames[..11]

  /** The run as written: once the jitter width has been read, a positive
      width raises NameError before `average_repump_time` is read; otherwise
      the run proceeds as `Run`. */
  function RunAsWritten(s: Store, inp: RunInputs, rows: nat, cols: nat): (f: Result<seq<real>, EngineError>)
    requires InputsFit(inp, rows, cols)
    ensures f.Ok? <==>
      Run(s, inp, rows, cols).Ok? && GetNumber(s, RepumpTimeJitter).Ok? && GetNumber(s, RepumpTimeJitter).value <= 0.0
    ensures GetNumber(s, RepumpTimeJitter).Ok? && GetNumber(s, RepumpTimeJitter).value <= 0.0 ==> f == Run(s, inp, rows, cols)
    ensures (&& (forall i :: 0 <= i < |NamesBeforeJitter| ==> GetNumber(s, NamesBeforeJitter[i]).Ok?)
             && GetNumber(s, RepumpTimeJitter).Ok? && GetNumber(s, RepumpTimeJitter).value > 0.0) ==> f == Err(UndefinedName)
  {
    ReadsBeforeJitter(s, inp, rows, cols);
    match GetNumbers(s, NamesBeforeJitter)
    case Err(e) => Err(ParamError(e))
    case Ok(v) =>
      match StaticRepumpJitterAsWritten(v[9], v[10], cols)
      case Err(e) => Err(e)
      case Ok(_) => Run(s, inp, rows, cols)
  }

  /** What reading the names before the jitter tells about the whole run. */
  lemma ReadsBeforeJitter(s: Store, inp: RunInputs, rows: nat, cols: nat)
    requires InputsFit(inp, rows, cols)
    ensures var pre := GetNumbers(s, NamesBeforeJitter);
      && (pre.Ok? <==> forall i :: 0 <= i < |NamesBeforeJitter| ==> GetNumber(s, NamesBeforeJitter[i]).Ok?)
      && (pre.Ok? ==> |pre.value| == 11 && GetNumber(s, RepumpTimeJitter) == Ok(pre.value[10]))
      && (pre.Err? ==> Run(s, inp, rows, cols) == Err(ParamError(pre.error)))
      && (Run(s, inp, rows, cols).Ok? ==> pre.Ok?)
  {
    var pre := GetNumbers(s, NamesBeforeJitter);
    GetNumbersPrefix(s, RequiredNames, 11);
    assert NamesBeforeJitter[10] == RepumpTimeJitter;
    if forall i :: 0 <= i < |NamesBeforeJitter| ==> GetNumber(s, NamesBeforeJitter[i]).Ok? {
      GetNumbersAllRead(s, NamesBeforeJitter);
    }
  }

  lemma {:induction false} GetNumbersAllRead(s: Store, names: seq<Key>)
    requires forall i :: 0 <= i < |names| ==> GetNumber(s, names[i]).Ok?
    ensures GetNumbers(s, names).Ok?
    decreases |names|
  {
    if |names| > 0 {
      assert forall i :: 0 <= i < |names[1..]| ==> names[1..][i] == names[i + 1];
      GetNumbersAllRead(s, names[1..]);
    }
  }

  /** With perfect initialisation and microwave pulses and no repump jitter,
      an attempt adds phase only when it repumps, which is exactly when its
      projection did not flip, and then the negated repump phase and the
      negated offset (scaled by the coupling), times 2*pi. */
  lemma PerfectDevicesOnlyRepumpsDephase(p: RunParams, inp: RunInputs, rows: nat, cols: nat)
    requires InputsFit(inp, rows, cols) && UnitDraws(inp.draws.init) && UnitDraws(inp.draws.mw)
    requires p.nv.initInfidelity == 0.0 && p.nv.mwInfidelity == 0.0 && p.repumpJitter <= 0.0
    ensures var m := RunPhases(p, inp, rows, cols);
      forall k, j :: 0 <= k < rows && 0 <= j < cols ==>
        m[k][j] ==
          if Flipped(p.nv, inp.draws.alpha[k][j]) then 0.0
          else (-1.0 * inp.repumpPhases[k][j] + -1.0 * p.phase.coupling * p.repumpOffset) * inp.twoPi
  {
    var cells := Classify(p.nv, inp.draws, rows, cols);
    PerfectDevices(p.nv, inp.draws, rows, cols);
    forall k, j | 0 <= k < rows && 0 <= j < cols
      ensures Coherent(cells[k][j])
    {
      ClassifiedCellsAreCoherent(p.nv, inp.draws.init[k][j], inp.draws.mw[k][j], inp.draws.alpha[k][j]);
    }
  }
}

=== FILE: engine_errors.dfy ===
/** How one Monte Carlo run or query fails. */
module EngineErrors {
  import ParamTree

  datatype EngineError =
    | ParamError(cause: ParamTree.StoreError)  // a required parameter cannot be read
    | UndefinedName                            // NameError: the random jitter branch sizes by `length`
    | NoAttempts                               // averaging over zero attempts (numpy's average divides 0 by 0)
    | NoRepetitions                            // averaging over zero repetitions (numpy yields NaN)
    | EmptyCurve                               // argmin of an empty fidelity curve (numpy ValueError)
}

=== FILE: fidelity.dfy ===
/** From phases to the fidelity curve (`get_carbon_state_fidelity`) and the
    query for the attempt count nearest a target fidelity
    (`find_attempts_from_fidelity`), src/QMC_simulation.py. The cosine is an
    input function with values in [-1, 1]. */
module Fidelity {
  import opened Outcomes
  import opened EngineErrors
  import opened NvState

  /** Sum of the first `n` entries of column `j`. */
  function ColumnPrefixSum(m: seq<seq<real>>, j: nat, n: nat): real
    requires n <= |m| && forall i :: 0 <= i < n ==> j < |m[i]|
  {
    if n == 0 then 0.0 else ColumnPrefixSum(m, j, n - 1) + m[n - 1][j]
  }

  lemma {:induction false} ColumnPrefixSumOfPrefix(m: seq<seq<real>>, j: nat, n: nat, len: nat)
    requires n <= len <= |m| && forall i :: 0 <= i < len ==> j < |m[i]|
    ensures ColumnPrefixSum(m[..len], j, n) == ColumnPrefixSum(m, j, n)
  {
    if n > 0 {
      ColumnPrefixSumOfPrefix(m, j, n - 1, len);
      assert m[..len][n - 1] == m[n - 1];
    }
  }

  /** `np.cumsum(phases, axis = 0)`: entry (k, j) is the phase column j has
      accumulated over attempts 0..k. */
  function CumSum(m: seq<seq<real>>, cols: nat): (c: seq<seq<real>>)
    requires IsShape(m, |m|, cols)
    ensures IsShape(c, |m|, cols)
    ensures forall k, j :: 0 <= k < |m| && 0 <= j < cols ==> c[k][j] == ColumnPrefixSum(m, j, k + 1)
    decreases |m|
  {
    if |m| == 0 then []
    else
      var n := |m| - 1;
      var prev := CumSum(m[..n], cols);
      var row := seq(cols, j requires 0 <= j < cols => (if n == 0 then 0.0 else prev[n - 1][j]) + m[n][j]);
      assert forall k, j :: 0 <= k < n && 0 <= j < cols ==> prev[k][j] == ColumnPrefixSum(m, j, k + 1) by {
        forall k, j | 0 <= k < n && 0 <= j < cols ensures prev[k][j] == ColumnPrefixSum(m, j, k + 1) {
          ColumnPrefixSumOfPrefix(m, j, k + 1, n);
        }
      }
      prev + [row]
  }

  /** Columns are independent: a column's running sums depend on that column
      of the phases only. */
  lemma CumSumColumnsIndependent(m1: seq<seq<real>>, m2: seq<seq<real>>, cols: nat, j: nat)
    requires IsShape(m1, |m1|, cols) && IsShape(m2, |m1|, cols) && j < cols
    requires forall k :: 0 <= k < |m1| ==> m1[k][j] == m2[k][j]
    ensures forall k :: 0 <= k < |m1| ==> CumSum(m1, cols)[k][j] == CumSum(m2, cols)[k][j]
  {
    forall n | 1 <= n <= |m1| ensures ColumnPrefixSum(m1, j, n) == ColumnPrefixSum(m2, j, n) {
      ColumnPrefixSumsAgree(m1, m2, j, n);
    }
  }

  lemma {:induction false} ColumnPrefixSumsAgree(m1: seq<seq<real>>, m2: seq<seq<real>>, j: nat, n: nat)
    requires n <= |m1| && n <= |m2|
    requires forall i :: 0 <= i < n ==> j < |m1[i]| && j < |m2[i]| && m1[i][j] == m2[i][j]
    ensures ColumnPrefixSum(m1, j, n) == ColumnPrefixSum(m2, j, n)
  {
    if n > 0 {
      ColumnPrefixSumsAgree(m1, m2, j, n - 1);
    }
  }

  /** The cosine stands for numpy's; all that is assumed of it is its range. */
  ghost predicate CosineRange(cos: real -> real) {
    forall x :: -1.0 <= cos(x) <= 1.0
  }

  /** Sum of the cosines of one row of accumulated phases. */
  function SumCos(row: seq<real>, cos: real -> real): real
    decreases |row|
  {
    if |row| == 0 then 0.0 else SumCos(row[..|row| - 1], cos) + cos(row[|row| - 1])
  }

  lemma {:induction false} SumCosBounds(row: seq<real>, cos: real -> real)
    requires CosineRange(cos)
    ensures -(|row| as real) <= SumCos(row, cos) <= |row| as real
    decreases |row|
  {
    if |row| > 0 {
      SumCosBounds(row[..|row| - 1], cos);
      var last := row[|row| - 1];
      assert -1.0 <= cos(last) <= 1.0;
    }
  }

  /** (mean over repetitions of cos(accumulated phase) + 1) / 2, per attempt. */
  function RowFidelity(row: seq<real>, cos: real -> real): (f: real)
    requires |row| > 0 && CosineRange(cos)
    ensures 0.0 <= f <= 1.0
  {
    SumCosBounds(row, cos);
    (SumCos(row, cos) / (|row| as real) + 1.0) / 2.0
  }

  /** Row k of the accumulated phases, by the reference column sums: what
      repetition j has accumulated over attempts 0..k. */
  function AccumulatedRow(phases: seq<seq<real>>, cols: nat, k: nat): seq<real>
    requires IsShape(phases, |phases|, cols) && k < |phases|
  {
    seq(cols, j requires 0 <= j < cols => ColumnPrefixSum(phases, j, k + 1))
  }

  /** The fidelity curve from the phase matrix: one value per attempt, each in
      [0, 1]. numpy's average over zero attempts divides the element count by
      the (zero) result size and raises; over zero repetitions it yields NaN.
      Both are errors here. */
  function FidelityCurve(phases: seq<seq<real>>, cols: nat, cos: real -> real): (f: Result<seq<real>, EngineError>)
    requires IsShape(phases, |phases|, cols) && CosineRange(cos)
    ensures f.Ok? <==> cols > 0 && |phases| > 0
    ensures |phases| == 0 ==> f == Err(NoAttempts)
    ensures |phases| > 0 && cols == 0 ==> f == Err(NoRepetitions)
    ensures f.Ok? ==> |f.value| == |phases| && forall k :: 0 <= k < |phases| ==> 0.0 <= f.value[k] <= 1.0
    // attempt k: the mean over repetitions of the cosine of the phase
    // accumulated over attempts 0..k, shifted and halved
    ensures f.Ok? ==> forall k :: 0 <= k < |phases| ==>
      f.value[k] == (SumCos(AccumulatedRow(phases, cols, k), cos) / (cols as real) + 1.0) / 2.0
  {
    if |phases| == 0 then Err(NoAttempts)
    else if cols == 0 then Err(NoRepetitions)
    else
      var acc := CumSum(phases, cols);
      assert forall k :: 0 <= k < |phases| ==> acc[k] == AccumulatedRow(phases, cols, k);
      Ok(seq(|phases|, k requires 0 <= k < |phases| => RowFidelity(acc[k], cos)))
  }

  /** An attempt at which every repetition's accumulated phase has cosine 1
      has fidelity exactly 1; one at which every cosine is -1 has fidelity 0. */
  lemma {:induction false} AlignedPhasesGiveExtremeFidelity(row: seq<real>, cos: real -> real, s: real)
    requires |row| > 0 && CosineRange(cos) && (s == 1.0 || s == -1.0)
    requires forall j :: 0 <= j < |row| ==> cos(row[j]) == s
    ensures RowFidelity(row, cos) == (s + 1.0) / 2.0
  {
    SumCosConstant(row, cos, s);
    var n := |row| as real;
    assert n * s / n == s;
  }

  lemma {:induction false} SumCosConstant(row: seq<real>, cos: real -> real, s: real)
    requires forall j :: 0 <= j < |row| ==> cos(row[j]) == s
    ensures SumCos(row, cos) == (|row| as real) * s
    decreases |row|
  {
    if |row| > 0 {
      SumCosConstant(row[..|row| - 1], cos, s);
    }
  }

  // ---------------------------------------------------------------------------
  // Query: the attempt count whose fidelity is nearest the target.

  function Dist(a: real, b: real): real {
    if a < b then b - a else a - b
  }

  /** `np.abs(curve - target).argmin()`: the first index of minimal distance
      to the target, by a linear scan that assumes nothing about the curve's
      order. An empty curve raises. */
  method FindAttemptsFromFidelity(curve: seq<real>, target: real) returns (r: Result<nat, EngineError>)
    ensures r.Ok? <==> |curve| > 0
    ensures r.Err? ==> r.error == EmptyCurve
    ensures r.Ok? ==> r.value < |curve|
    ensures r.Ok? ==> forall j :: 0 <= j < |curve| ==> Dist(curve[r.value], target) <= Dist(curve[j], target)
    ensures r.Ok? ==> forall j :: 0 <= j < r.value ==> Dist(curve[r.value], target) < Dist(curve[j], target)
  {
    if |curve| == 0 {
      return Err(EmptyCurve);
    }
    var best := 0;
    var i := 1;
    while i < |curve|
      invariant 1 <= i <= |curve| && best < i
      invariant forall j :: 0 <= j < i ==> Dist(curve[best], target) <= Dist(curve[j], target)
      invariant forall j :: 0 <= j < best ==> Dist(curve[best], target) < Dist(curve[j], target)
    {
      if Dist(curve[i], target) < Dist(curve[best], target) {
        best := i;
      }
      i := i + 1;
    }
    return Ok(best);
  }
}

=== FILE: nuclear_phase.dfy ===
/** Nuclear-spin phase picked up in each entangling attempt
    (`calc_nuclear_phase_distribution` and `_get_static_repump_jitter`,
    src/QMC_simulation.py). The repump-phase matrix (built with a logarithm
    from the repump draws) and the constant 2*pi are inputs. */
module NuclearPhase {
  import opened Outcomes
  import opened EngineErrors
  import opened NvState

  /** The parameters the phase model reads from the store. */
  datatype PhaseParams = PhaseParams(coupling: real, t: real, larmorPeriod: real, larmorOrder: real)

  /** Phase per attempt for each electron-spin history, in units of turns. */
  datatype PhaseConstants = PhaseConstants(initInP1: real, initInM1: real, mwIn0: real, mwInM1: real, mwInP1: real)

  function Constants(p: PhaseParams): (k: PhaseConstants)
    // free evolution in -1 mirrors free evolution in +1
    ensures k.initInM1 == -k.initInP1
    // in the rotating frame at the mean of the 0 and -1 frequencies, 0 and -1 mirror each other
    ensures k.mwInM1 == -k.mwIn0
    // the +1 decoupling phase is three times the 0-state phase, with the opposite sign
    ensures k.mwInP1 == -3.0 * k.mwIn0
    // free evolution scales with the free evolution time, decoupling with the Larmor interval
    ensures k.initInP1 == p.coupling * p.t
    ensures k.mwIn0 == -(p.larmorPeriod * p.larmorOrder) * p.coupling
  {
    var decoupling := p.larmorPeriod * p.larmorOrder;
    var initInP1 := p.coupling * p.t;
    var mwIn0 := -decoupling * p.coupling;
    PhaseConstants(initInP1, -initInP1, mwIn0, -mwIn0, 1.5 * 2.0 * decoupling * p.coupling)
  }

  /** The invariants of a classified cell that the phase sum relies on. */
  predicate Coherent(c: NvCell) {
    && ExactlyOne(c.in0, c.inP1, c.inM1)
    && !(c.mw0 && c.mwM1)
    && (c.inP1 ==> !c.mw0 && !c.mwM1 && c.repump)
  }

  lemma ClassifiedCellsAreCoherent(p: NvParams, uInit: real, uMw: real, uAlpha: real)
    requires p.initInfidelity >= 0.0 || uInit < 1.0
    ensures Coherent(ClassifyCell(p, uInit, uMw, uAlpha))
  {
  }

  /** The repump term of a cell: the negated repump phase and the negated
      static timing offset of its repetition, scaled by the coupling. */
  function RepumpTerm(coupling: real, repumpPhase: real, jitter: real): real {
    -1.0 * repumpPhase + -1.0 * coupling * jitter
  }

  /** The mask-weighted phase sum of one cell, times 2*pi. For a coherent
      cell it is the phase of the initial state's free evolution, plus the
      phase of the microwave outcome that occurred, plus the repump term when
      the cell repumps. */
  function CellPhase(k: PhaseConstants, c: NvCell, repumpPhase: real, jitter: real, coupling: real, twoPi: real): (r: real)
    ensures Coherent(c) ==>
      var free := if c.inP1 then k.initInP1 + k.mwInP1 else if c.inM1 then k.initInM1 else 0.0;
      var mw := if c.mw0 then k.mwIn0 else if c.mwM1 then k.mwInM1 else 0.0;
      var rep := if c.repump then RepumpTerm(coupling, repumpPhase, jitter) else 0.0;
      r == (free + mw + rep) * twoPi
    ensures !c.inM1 && !c.inP1 && !c.mw0 && !c.mwM1 && !c.repump ==> r == 0.0
  {
    var sum := 0.0;
    var sum := sum + (if c.inM1 then 1.0 else 0.0) * k.initInM1;
    var sum := sum + (if c.inP1 then 1.0 else 0.0) * (k.initInP1 + k.mwInP1);
    var sum := sum + (if c.mw0 then 1.0 else 0.0) * k.mwIn0;
    var sum := sum + (if c.mwM1 then 1.0 else 0.0) * k.mwInM1;
    var sum := sum + (if c.repump then 1.0 else 0.0) * RepumpTerm(coupling, repumpPhase, jitter);
    sum * twoPi
  }

  /** The phase matrix: one entry per attempt (row) and repetition (column);
      the static jitter of column j is shared by every attempt of column j. */
  function PhaseMatrix(p: PhaseParams, cells: seq<seq<NvCell>>, repumpPhases: seq<seq<real>>, jitter: seq<real>,
                       twoPi: real, rows: nat, cols: nat): (m: seq<seq<real>>)
    requires IsShape(cells, rows, cols) && IsShape(repumpPhases, rows, cols) && |jitter| == cols
    ensures IsShape(m, rows, cols)
    ensures forall i, j :: 0 <= i < rows && 0 <= j < cols ==>
      m[i][j] == CellPhase(Constants(p), cells[i][j], repumpPhases[i][j], jitter[j], p.coupling, twoPi)
  {
    var k := Constants(p);
    seq(rows, i requires 0 <= i < rows =>
      seq(cols, j requires 0 <= j < cols => CellPhase(k, cells[i][j], repumpPhases[i][j], jitter[j], p.coupling, twoPi)))
  }

  /** Changing the static jitter of the repetitions shifts every repumped
      attempt of column j by the same amount, which depends on column j only,
      and leaves attempts without a repump alone. */
  lemma JitterShiftsWholeColumn(p: PhaseParams, cells: seq<seq<NvCell>>, repumpPhases: seq<seq<real>>,
                                jitter1: seq<real>, jitter2: seq<real>, twoPi: real, rows: nat, cols: nat)
    requires IsShape(cells, rows, cols) && IsShape(repumpPhases, rows, cols)
    requires |jitter1| == cols && |jitter2| == cols
    ensures var m1 := PhaseMatrix(p, cells, repumpPhases, jitter1, twoPi, rows, cols);
      var m2 := PhaseMatrix(p, cells, repumpPhases, jitter2, twoPi, rows, cols);
      forall i, j :: 0 <= i < rows && 0 <= j < cols ==>
        m1[i][j] - m2[i][j] ==
          if cells[i][j].repump then -1.0 * p.coupling * (jitter1[j] - jitter2[j]) * twoPi else 0.0
  {
  }

  // ---------------------------------------------------------------------------
  // Static repump jitter, one offset per repetition.

  /** The source as written: the deterministic branch is a vector of the
      offset; the random branch sizes its draw by the undefined name
      `length` and raises. */
  function StaticRepumpJitterAsWritten(offset: real, sigma: real, repetitions: nat): (r: Result<seq<real>, EngineError>)
    ensures sigma <= 0.0 ==> r.Ok? && |r.value| == repetitions && forall i :: 0 <= i < repetitions ==> r.value[i] == offset
    ensures sigma > 0.0 ==> r == Err(UndefinedName)
  {
    if sigma <= 0.0 then Ok(seq(repetitions, _ => offset)) else Err(UndefinedName)
  }

  /** Any positive jitter width makes the run raise. */
  lemma JitterAsWrittenFailsWhenRandom(offset: real, repetitions: nat)
    ensures StaticRepumpJitterAsWritten(offset, 1.0, repetitions).Err?
  {
  }

  /** The jitter sized by `repetitions`: a constant offset when the width is
      not positive, otherwise the absolute value of a normal draw with the
      offset as mean and the width as scale, given by standard normal draws. */
  function StaticRepumpJitter(offset: real, sigma: real, repetitions: nat, normals: seq<real>): (r: seq<real>)
    requires sigma > 0.0 ==> |normals| == repetitions
    ensures |r| == repetitions
    ensures sigma <= 0.0 ==> forall i :: 0 <= i < repetitions ==> r[i] == offset
    ensures sigma > 0.0 ==> forall i :: 0 <= i < repetitions ==>
      r[i] >= 0.0 && (r[i] == offset + sigma * normals[i] || r[i] == -(offset + sigma * normals[i]))
  {
    if sigma <= 0.0 then seq(repetitions, _ => offset)
    else seq(repetitions, i requires 0 <= i < repetitions => Abs(offset + sigma * normals[i]))
  }

  function Abs(x: real): real {
    if x < 0.0 then -x else x
  }

  /** The corrected jitter agrees with the source wherever the source does not
      raise. */
  lemma JitterAgreesWithSource(offset: real, sigma: real, repetitions: nat, normals: seq<real>)
    requires sigma > 0.0 ==> |normals| == repetitions
    ensures StaticRepumpJitterAsWritten(offset, sigma, repetitions).Ok? ==>
      StaticRepumpJitterAsWritten(offset, sigma, repetitions).value == StaticRepumpJitter(offset, sigma, repetitions, normals)
  {
  }
}

=== FILE: nv_state.dfy ===
/** Per-cell classification of the NV electron spin during one entangling
    attempt of one Monte Carlo repetition (`get_nv_state_during_sequence`,
    src/QMC_simulation.py). Each cell consumes three uniform draws in [0, 1):
    initialisation, microwave pulse and state projection. */
module NvState {

  /** The three probabilities the classification reads from the store. */
  datatype NvParams = NvParams(initInfidelity: real, mwInfidelity: real, pflip: real)

  /** The boolean masks of one cell. */
  datatype NvCell = NvCell(in0: bool, inP1: bool, inM1: bool, mwM1: bool, mw0: bool, repump: bool)

  /** The microwave pi-pulse failed. */
  predicate MwFailed(p: NvParams, uMw: real) {
    uMw > 1.0 - p.mwInfidelity
  }

  /** The state projection after the first microwave pulse flipped the spin. */
  predicate Flipped(p: NvParams, uAlpha: real) {
    uAlpha > p.pflip
  }

  predicate ExactlyOne(a: bool, b: bool, c: bool) {
    (a && !b && !c) || (!a && b && !c) || (!a && !b && c)
  }

  function ClassifyCell(p: NvParams, uInit: real, uMw: real, uAlpha: real): (c: NvCell)
    // the initial states partition the cell when the infidelity is not negative
    // or the draw lies below 1
    ensures p.initInfidelity >= 0.0 || uInit < 1.0 ==> ExactlyOne(c.in0, c.inP1, c.inM1)
    // the two microwave outcomes exclude each other, and each needs a failed
    // pulse on an electron that did not start in +1
    ensures !(c.mwM1 && c.mw0)
    ensures c.mwM1 ==> MwFailed(p, uMw) && !c.inP1
    ensures c.mw0 ==> MwFailed(p, uMw) && !c.inP1
    // a failed pulse on an electron not in +1 leaves it in 0 when exactly one
    // of "started in 0" and "flipped" holds, and in -1 otherwise
    ensures p.initInfidelity >= 0.0 || uInit < 1.0 ==>
      && (c.mw0 <==> MwFailed(p, uMw) && !c.inP1 && (c.in0 != Flipped(p, uAlpha)))
      && (c.mwM1 <==> MwFailed(p, uMw) && !c.inP1 && (c.in0 == Flipped(p, uAlpha)))
    // an electron that started in +1 is always repumped
    ensures c.inP1 ==> c.repump
  {
    var in0 := uInit < 1.0 - p.initInfidelity;
    var inP1 := uInit >= 1.0 - p.initInfidelity / 2.0;
    var inM1 := !(in0 || inP1);
    var flip := Flipped(p, uAlpha);
    var mwCanFail := MwFailed(p, uMw) && !inP1;
    var mwM1 := mwCanFail && ((inM1 && !flip) || (flip && in0));
    var mw0 := mwCanFail && ((in0 && !flip) || (flip && inM1));
    var repump := mwM1 || (in0 && !flip) || inP1 || (inM1 && flip);
    NvCell(in0, inP1, inM1, mwM1, mw0, repump)
  }

  /** The three initial states occupy consecutive slices of [0, 1) of widths
      1 - e, e/2 and e/2: 0 below 1 - e, -1 up to 1 - e/2, +1 above. */
  lemma InitialStateSlices(p: NvParams, uInit: real, uMw: real, uAlpha: real)
    requires 0.0 <= p.initInfidelity
    ensures var c := ClassifyCell(p, uInit, uMw, uAlpha);
      && (c.in0 <==> uInit < 1.0 - p.initInfidelity)
      && (c.inM1 <==> 1.0 - p.initInfidelity <= uInit < 1.0 - p.initInfidelity / 2.0)
      && (c.inP1 <==> 1.0 - p.initInfidelity / 2.0 <= uInit)
  {
  }

  /** Without either guard the initial states can overlap: a negative
      infidelity and a draw of 1 - e/2 put the electron in 0 and in +1 at once. */
  lemma NegativeInfidelityOverlaps(p: NvParams, uMw: real, uAlpha: real)
    requires p.initInfidelity < 0.0
    ensures var c := ClassifyCell(p, 1.0 - p.initInfidelity / 2.0, uMw, uAlpha);
      c.in0 && c.inP1
  {
  }

  /** A cell is left without a repump exactly when the microwave pulse did
      not fail and the electron started in 0 and flipped, or started in -1
      and did not flip. */
  lemma NoRepumpExactly(p: NvParams, uInit: real, uMw: real, uAlpha: real)
    requires p.initInfidelity >= 0.0 || uInit < 1.0
    ensures var c := ClassifyCell(p, uInit, uMw, uAlpha);
      !c.repump <==>
        && ((c.in0 && Flipped(p, uAlpha)) || (c.inM1 && !Flipped(p, uAlpha)))
        && !MwFailed(p, uMw)
  {
  }

  /** A perfect microwave pulse never fails on a draw in [0, 1), so neither
      microwave outcome occurs. */
  lemma PerfectPulseNeverFails(p: NvParams, uInit: real, uMw: real, uAlpha: real)
    requires p.mwInfidelity == 0.0 && 0.0 <= uMw < 1.0
    ensures !MwFailed(p, uMw)
    ensures var c := ClassifyCell(p, uInit, uMw, uAlpha); !c.mw0 && !c.mwM1
  {
  }

  /** Perfect initialisation puts every draw in [0, 1) in state 0. */
  lemma PerfectInitAlwaysZero(p: NvParams, uInit: real, uMw: real, uAlpha: real)
    requires p.initInfidelity == 0.0 && 0.0 <= uInit < 1.0
    ensures var c := ClassifyCell(p, uInit, uMw, uAlpha); c.in0 && !c.inP1 && !c.inM1
  {
  }

  /** The projection flips when the draw exceeds pflip: a pflip of 1 or more
      never flips a draw in [0, 1), a pflip of 0 flips every positive draw. */
  lemma FlipBoundaries(p: NvParams, uAlpha: real)
    requires 0.0 <= uAlpha < 1.0
    ensures p.pflip >= 1.0 ==> !Flipped(p, uAlpha)
    ensures p.pflip == 0.0 ==> (Flipped(p, uAlpha) <==> uAlpha > 0.0)
  {
  }

  // ---------------------------------------------------------------------------
  // The masks over the attempts x repetitions draw matrices.

  /** All rows of `m` have `cols` entries. */
  predicate IsShape<T>(m: seq<seq<T>>, rows: nat, cols: nat) {
    |m| == rows && forall k :: 0 <= k < rows ==> |m[k]| == cols
  }

  /** Every draw lies in [0, 1), as `np.random.rand` guarantees. */
  predicate UnitDraws(m: seq<seq<real>>) {
    forall k, j :: 0 <= k < |m| && 0 <= j < |m[k]| ==> 0.0 <= m[k][j] < 1.0
  }

  /** The three draw matrices consumed by the classification. */
  datatype Draws = Draws(init: seq<seq<real>>, mw: seq<seq<real>>, alpha: seq<seq<real>>)

  predicate DrawsShape(d: Draws, rows: nat, cols: nat) {
    IsShape(d.init, rows, cols) && IsShape(d.mw, rows, cols) && IsShape(d.alpha, rows, cols)
  }

  /** Element-wise classification of all cells; every mask matrix keeps the
      shape of the draws and cell (k, j) depends on the draws of (k, j) only. */
  function Classify(p: NvParams, d: Draws, rows: nat, cols: nat): (m: seq<seq<NvCell>>)
    requires DrawsShape(d, rows, cols)
    ensures IsShape(m, rows, cols)
    ensures forall k, j :: 0 <= k < rows && 0 <= j < cols ==>
      m[k][j] == ClassifyCell(p, d.init[k][j], d.mw[k][j], d.alpha[k][j])
  {
    seq(rows, k requires 0 <= k < rows =>
      seq(cols, j requires 0 <= j < cols => ClassifyCell(p, d.init[k][j], d.mw[k][j], d.alpha[k][j])))
  }

  /** With perfect initialisation and perfect microwave pulses no cell ever
      leaves state 0 or takes a microwave branch, and a cell repumps exactly
      when its projection did not flip. */
  lemma PerfectDevices(p: NvParams, d: Draws, rows: nat, cols: nat)
    requires DrawsShape(d, rows, cols) && UnitDraws(d.init) && UnitDraws(d.mw)
    requires p.initInfidelity == 0.0 && p.mwInfidelity == 0.0
    ensures var m := Classify(p, d, rows, cols);
      forall k, j :: 0 <= k < rows && 0 <= j < cols ==>
        && m[k][j].in0 && !m[k][j].inP1 && !m[k][j].inM1
        && !m[k][j].mw0 && !m[k][j].mwM1
        && (m[k][j].repump <==> !Flipped(p, d.alpha[k][j]))
  {
  }
}

=== FILE: outcomes.dfy ===
/** Failure-carrying results shared by the parameter store and the Monte Carlo engine.
    A Python exception that ends an operation becomes an `Err`. */
module Outcomes {

  datatype Option<+T> = None | Some(value: T)

  datatype Result<+T, +E> = Ok(value: T) | Err(error: E)

}

=== FILE: param_index.dfy ===
/** The flat parameter map of src/simulation.py: built once by a depth-first
    walk of the nested dict (`_create_parameter_map`), it sends every leaf
    name to the route of keys that reaches it. */
module ParamIndex {
  import opened Outcomes
  import opened ParamTree

  type Index = map<Key, Route>

  /** The key a leaf is reached under: the last key of its route, or the
      empty name for the root itself (the walk starts with an empty name). */
  function KeyOf(path: Route): Key {
    if |path| == 0 then "" else path[|path| - 1]
  }

  /** Every leaf route below `n`, which sits at `path`, in the order the walk
      visits them (each dict's iteration order). */
  function LeafPaths(path: Route, n: Node): seq<Route>
    decreases n
  {
    match n
    case Leaf(_) => [path]
    case Branch(es) => EntryLeafPaths(path, es)
  }

  function EntryLeafPaths(path: Route, es: seq<Entry>): seq<Route>
    decreases es
  {
    if |es| == 0 then []
    else LeafPaths(path + [es[0].key], es[0].child) + EntryLeafPaths(path, es[1..])
  }

  /** The indexing helper. A number reached under a non-empty name is
      recorded with its full route, overwriting any earlier entry of that
      name; anything else is iterated, which fails on a number reached under
      the empty name. */
  function Walk(path: Route, n: Node, acc: Index): Result<Index, StoreError>
    decreases n
  {
    match n
    case Leaf(_) => if KeyOf(path) != "" then Ok(acc[KeyOf(path) := path]) else Err(NotIterable)
    case Branch(es) => WalkEntries(path, es, acc)
  }

  function WalkEntries(path: Route, es: seq<Entry>, acc: Index): Result<Index, StoreError>
    decreases es
  {
    if |es| == 0 then Ok(acc)
    else
      match Walk(path + [es[0].key], es[0].child, acc)
      case Err(e) => Err(e)
      case Ok(a) => WalkEntries(path, es[1..], a)
  }

  function BuildIndex(root: Node): Result<Index, StoreError> {
    Walk([], root, map[])
  }

  // ---------------------------------------------------------------------------
  // Reference definition: record the visited leaf routes one after another.

  /** Each route is stored under its last key; a later route of the same name
      replaces an earlier one. */
  function Record(acc: Index, paths: seq<Route>): Index
    decreases |paths|
  {
    if |paths| == 0 then acc else Record(acc[KeyOf(paths[0]) := paths[0]], paths[1..])
  }

  predicate AllNamed(paths: seq<Route>) {
    forall i :: 0 <= i < |paths| ==> KeyOf(paths[i]) != ""
  }

  /** No two leaves of the dict share a name, the documented assumption. */
  predicate UniqueLeafNames(root: Node) {
    var ps := LeafPaths([], root);
    forall i, j :: 0 <= i < j < |ps| ==> KeyOf(ps[i]) != KeyOf(ps[j])
  }

  lemma {:induction false} RecordAppend(acc: Index, a: seq<Route>, b: seq<Route>)
    ensures Record(acc, a + b) == Record(Record(acc, a), b)
    decreases |a|
  {
    if |a| > 0 {
      assert (a + b)[1..] == a[1..] + b;
      RecordAppend(acc[KeyOf(a[0]) := a[0]], a[1..], b);
    } else {
      assert a + b == b;
    }
  }

  lemma {:induction false} WalkMatchesRecord(path: Route, n: Node, acc: Index)
    ensures Walk(path, n, acc) ==
      if AllNamed(LeafPaths(path, n)) then Ok(Record(acc, LeafPaths(path, n))) else Err(NotIterable)
    decreases n
  {
    match n
    case Leaf(_) =>
      assert Record(acc, [path]) == Record(acc[KeyOf(path) := path], []);
    case Branch(es) => WalkEntriesMatchesRecord(path, es, acc);
  }

  lemma {:induction false} WalkEntriesMatchesRecord(path: Route, es: seq<Entry>, acc: Index)
    ensures WalkEntries(path, es, acc) ==
      if AllNamed(EntryLeafPaths(path, es)) then Ok(Record(acc, EntryLeafPaths(path, es))) else Err(NotIterable)
    decreases es
  {
    if |es| > 0 {
      var head := LeafPaths(path + [es[0].key], es[0].child);
      var tail := EntryLeafPaths(path, es[1..]);
      WalkMatchesRecord(path + [es[0].key], es[0].child, acc);
      if AllNamed(head) {
        WalkEntriesMatchesRecord(path, es[1..], Record(acc, head));
        RecordAppend(acc, head, tail);
        assert AllNamed(head + tail) <==> AllNamed(tail) by {
          assert forall i :: 0 <= i < |tail| ==> (head + tail)[|head| + i] == tail[i];
        }
      } else {
        assert !AllNamed(head + tail) by {
          var i :| 0 <= i < |head| && KeyOf(head[i]) == "";
          assert (head + tail)[i] == head[i];
        }
      }
    }
  }

  /** The builder is the reference fold over the leaf routes, and it fails
      exactly when some number is reached under the empty name. */
  lemma BuildIndexIsRecord(root: Node)
    ensures BuildIndex(root) ==
      if AllNamed(LeafPaths([], root)) then Ok(Record(map[], LeafPaths([], root))) else Err(NotIterable)
  {
    WalkMatchesRecord([], root, map[]);
  }

  /** Last write wins: a name is recorded when some route ends in it, and then
      with the last such route. */
  lemma {:induction false} RecordLastWins(acc: Index, paths: seq<Route>, k: Key)
    ensures k in Record(acc, paths) <==> k in acc || exists i :: 0 <= i < |paths| && KeyOf(paths[i]) == k
    ensures (exists i :: 0 <= i < |paths| && KeyOf(paths[i]) == k) ==>
      exists i :: && 0 <= i < |paths| && KeyOf(paths[i]) == k && Record(acc, paths)[k] == paths[i]
                  && forall j :: i < j < |paths| ==> KeyOf(paths[j]) != k
    ensures (forall i :: 0 <= i < |paths| ==> KeyOf(paths[i]) != k) && k in acc ==> Record(acc, paths)[k] == acc[k]
    decreases |paths|
  {
    if |paths| > 0 {
      var acc' := acc[KeyOf(paths[0]) := paths[0]];
      var rest := paths[1..];
      RecordLastWins(acc', rest, k);
      if exists i :: 0 <= i < |rest| && KeyOf(rest[i]) == k {
        var i :| && 0 <= i < |rest| && KeyOf(rest[i]) == k && Record(acc', rest)[k] == rest[i]
                 && forall j :: i < j < |rest| ==> KeyOf(rest[j]) != k;
        assert paths[i + 1] == rest[i];
        assert forall j :: i + 1 < j < |paths| ==> KeyOf(paths[j]) != k by {
          forall j | i + 1 < j < |paths| ensures KeyOf(paths[j]) != k {
            assert paths[j] == rest[j - 1];
          }
        }
      } else if KeyOf(paths[0]) == k {
        assert forall j :: 0 < j < |paths| ==> KeyOf(paths[j]) != k by {
          forall j | 0 < j < |paths| ensures KeyOf(paths[j]) != k {
            assert paths[j] == rest[j - 1];
          }
        }
      } else {
        assert forall i :: 0 <= i < |paths| ==> KeyOf(paths[i]) != k by {
          forall i | 0 <= i < |paths| ensures KeyOf(paths[i]) != k {
            if i > 0 { assert paths[i] == rest[i - 1]; }
          }
        }
      }
    }
  }

  // ---------------------------------------------------------------------------
  // The leaf routes are exactly the routes that reach a number.

  lemma {:induction false} EntryLeafPathsMember(path: Route, es: seq<Entry>, p: Route)
    requires p in EntryLeafPaths(path, es)
    ensures exists i :: 0 <= i < |es| && p in LeafPaths(path + [es[i].key], es[i].child)
    decreases |es|
  {
    var head := LeafPaths(path + [es[0].key], es[0].child);
    if p !in head {
      EntryLeafPathsMember(path, es[1..], p);
      var i :| 0 <= i < |es[1..]| && p in LeafPaths(path + [es[1..][i].key], es[1..][i].child);
      assert es[1..][i] == es[i + 1];
    }
  }

  lemma {:induction false} EntryLeafPathsContains(path: Route, es: seq<Entry>, i: nat, p: Route)
    requires i < |es| && p in LeafPaths(path + [es[i].key], es[i].child)
    ensures p in EntryLeafPaths(path, es)
    decreases i
  {
    if i > 0 {
      assert es[1..][i - 1] == es[i];
      EntryLeafPathsContains(path, es[1..], i - 1, p);
    }
  }

  /** Soundness of the walk: each leaf route extends the starting route and
      leads, below `n`, to a number. */
  lemma {:induction false} LeafPathsReachLeaves(path: Route, n: Node, p: Route)
    requires WellFormed(n) && p in LeafPaths(path, n)
    ensures IsPrefix(path, p) && IsLeafAt(n, p[|path|..])
    decreases n
  {
    match n
    case Leaf(_) =>
      assert p == path;
      assert p[|path|..] == [];
    case Branch(es) =>
      EntryLeafPathsMember(path, es, p);
      var i :| 0 <= i < |es| && p in LeafPaths(path + [es[i].key], es[i].child);
      LeafPathsReachLeaves(path + [es[i].key], es[i].child, p);
      FindDistinct(es, i);
      var q := p[|path|..];
      assert q[0] == es[i].key;
      assert q[1..] == p[|path| + 1..];
      assert p[..|path|] == (path + [es[i].key])[..|path|];
      assert Descend(n, q) == Descend(es[i].child, q[1..]);
  }

  /** Completeness of the walk: every route that reaches a number below `n`
      is listed (no distinct-key assumption needed). */
  lemma {:induction false} LeafReachedIsListed(path: Route, n: Node, q: Route)
    requires IsLeafAt(n, q)
    ensures path + q in LeafPaths(path, n)
    decreases |q|
  {
    if |q| == 0 {
      assert path + q == path;
    } else {
      var es := n.entries;
      var i := Find(es, q[0]);
      LeafReachedIsListed(path + [q[0]], es[i].child, q[1..]);
      assert path + [q[0]] + q[1..] == path + q;
      EntryLeafPathsContains(path, es, i, path + q);
    }
  }

  // ---------------------------------------------------------------------------
  // What the built index promises.

  /** Every indexed name leads through its route to a number, and the last
      key of the route is the name itself. */
  lemma IndexSound(root: Node, name: Key)
    requires WellFormed(root) && BuildIndex(root).Ok? && name in BuildIndex(root).value
    ensures var route := BuildIndex(root).value[name];
      |route| >= 1 && route[|route| - 1] == name && IsLeafAt(root, route)
      && ReadPath(root, route).Ok? && ReadPath(root, route).value.Leaf?
  {
    var ps := LeafPaths([], root);
    BuildIndexIsRecord(root);
    RecordLastWins(map[], ps, name);
    var i :| 0 <= i < |ps| && KeyOf(ps[i]) == name && Record(map[], ps)[name] == ps[i];
    LeafPathsReachLeaves([], root, ps[i]);
    assert ps[i][0..] == ps[i];
    ReaderMatchesWalk(root, ps[i]);
  }

  /** Every number reached under a non-empty route has its name indexed; when
      the leaf names are unique, with exactly that route. */
  lemma IndexComplete(root: Node, p: Route)
    requires BuildIndex(root).Ok? && |p| >= 1
    requires ReadPath(root, p).Ok? && ReadPath(root, p).value.Leaf?
    ensures p[|p| - 1] in BuildIndex(root).value
    ensures UniqueLeafNames(root) ==> BuildIndex(root).value[p[|p| - 1]] == p
  {
    var ps := LeafPaths([], root);
    ReaderMatchesWalk(root, p);
    LeafReachedIsListed([], root, p);
    assert [] + p == p;
    var j :| 0 <= j < |ps| && ps[j] == p;
    var k := KeyOf(p);
    assert k == p[|p| - 1];
    BuildIndexIsRecord(root);
    RecordLastWins(map[], ps, k);
    if UniqueLeafNames(root) {
      var i :| && 0 <= i < |ps| && KeyOf(ps[i]) == k && Record(map[], ps)[k] == ps[i]
               && forall j' :: i < j' < |ps| ==> KeyOf(ps[j']) != k;
      assert i == j;
    }
  }

  /** With duplicate names the index keeps the route of the leaf visited last. */
  lemma IndexKeepsLastVisited(root: Node, name: Key)
    requires BuildIndex(root).Ok? && name in BuildIndex(root).value
    ensures var ps := LeafPaths([], root);
      exists i :: && 0 <= i < |ps| && ps[i] == BuildIndex(root).value[name] && KeyOf(ps[i]) == name
                  && forall j :: i < j < |ps| ==> KeyOf(ps[j]) != name
  {
    BuildIndexIsRecord(root);
    RecordLastWins(map[], LeafPaths([], root), name);
  }

  /** The build fails exactly when a number is reached under the empty name
      (a root that is itself a number included). */
  lemma BuildFailsOnUnnamedLeaf(root: Node)
    ensures BuildIndex(root).Err? <==> exists p :: p in LeafPaths([], root) && KeyOf(p) == ""
    ensures BuildIndex(root).Err? ==> BuildIndex(root).error == NotIterable
  {
    BuildIndexIsRecord(root);
  }

  /** The index depends on the shape of the dict only, not on its values. */
  lemma {:induction false} LeafPathsFollowShape(path: Route, a: Node, b: Node)
    requires SameShape(a, b)
    ensures LeafPaths(path, a) == LeafPaths(path, b)
    decreases a
  {
    match a
    case Leaf(_) =>
    case Branch(es) => EntryLeafPathsFollowShape(path, es, b.entries);
  }

  lemma {:induction false} EntryLeafPathsFollowShape(path: Route, es: seq<Entry>, fs: seq<Entry>)
    requires |es| == |fs|
    requires forall i :: 0 <= i < |es| ==> es[i].key == fs[i].key && SameShape(es[i].child, fs[i].child)
    ensures EntryLeafPaths(path, es) == EntryLeafPaths(path, fs)
    decreases es
  {
    if |es| > 0 {
      LeafPathsFollowShape(path + [es[0].key], es[0].child, fs[0].child);
      EntryLeafPathsFollowShape(path, es[1..], fs[1..]);
    }
  }

  lemma BuildIndexFollowsShape(a: Node, b: Node)
    requires SameShape(a, b)
    ensures BuildIndex(a) == BuildIndex(b)
  {
    LeafPathsFollowShape([], a, b);
    BuildIndexIsRecord(a);
    BuildIndexIsRecord(b);
  }
}

=== FILE: param_store.dfy ===
/** The parameter interface of the simulation base class (src/simulation.py):
    the nested dict plus the flat map built from it once at construction,
    flat-name `get_param`/`set_param`, and construction with overrides. */
module ParamStore {
  import opened Outcomes
  import opened ParamTree
  import opened ParamIndex

  datatype Store = Store(params: Node, index: Index)

  /** A store as the constructor leaves it: a genuine dict, and the flat map
      that indexing this dict yields. */
  ghost predicate Valid(s: Store) {
    WellFormed(s.params) && BuildIndex(s.params) == Ok(s.index)
  }

  /** Loading the defaults and building the map from them. */
  function Create(defaults: Node): (r: Result<Store, StoreError>)
    ensures r.Ok? <==> BuildIndex(defaults).Ok?
    ensures r.Err? ==> r.error == NotIterable
    ensures r.Ok? ==> r.value.params == defaults && (WellFormed(defaults) ==> Valid(r.value))
  {
    BuildFailsOnUnnamedLeaf(defaults);
    match BuildIndex(defaults)
    case Err(e) => Err(e)
    case Ok(idx) => Ok(Store(defaults, idx))
  }

  /** `get_param`: resolve the flat name, then read along its route. */
  function Get(s: Store, name: Key): (r: Result<Node, StoreError>)
    ensures name !in s.index ==> r == Err(UnknownParameter(name))
    ensures Valid(s) && name in s.index ==> r.Ok? && r.value.Leaf?
  {
    if name !in s.index then Err(UnknownParameter(name))
    else
      GetFindsLeaf(s, name);
      ReadPath(s.params, s.index[name])
  }

  /** `set_param`: resolve the flat name, then write along its route. The
      flat map itself is never touched. */
  function Set(s: Store, name: Key, v: real): (r: Result<Store, StoreError>)
    ensures name !in s.index ==> r == Err(UnknownParameter(name))
    ensures r.Ok? ==> r.value.index == s.index
    ensures Valid(s) && name in s.index ==> r.Ok?
  {
    if name !in s.index then Err(UnknownParameter(name))
    else
      SetSucceeds(s, name, v);
      match WritePath(s.params, s.index[name], v)
      case Err(e) => Err(e)
      case Ok(p) => Ok(Store(p, s.index))
  }

  lemma GetFindsLeaf(s: Store, name: Key)
    requires name in s.index
    ensures Valid(s) ==> ReadPath(s.params, s.index[name]).Ok? && ReadPath(s.params, s.index[name]).value.Leaf?
  {
    if Valid(s) {
      IndexSound(s.params, name);
    }
  }

  lemma SetSucceeds(s: Store, name: Key, v: real)
    requires name in s.index
    ensures Valid(s) ==> WritePath(s.params, s.index[name], v).Ok?
  {
    if !Valid(s) {
      return;
    }
    var route := s.index[name];
    IndexSound(s.params, name);
    WriterFailsLikeLoop(s.params, route, v);
    var init := route[..|route| - 1];
    assert init + [route[|route| - 1]] == route;
    DescendSnoc(s.params, init, route[|route| - 1]);
  }

  // ---------------------------------------------------------------------------
  // Properties of get/set on a valid store.

  /** Round trip: after `set_param(name, v)`, `get_param(name)` yields `v`. */
  lemma GetAfterSet(s: Store, name: Key, v: real)
    requires Valid(s) && name in s.index
    ensures Set(s, name, v).Ok? && Get(Set(s, name, v).value, name) == Ok(Leaf(v))
  {
    SetSucceeds(s, name, v);
    ReadAfterWrite(s.params, s.index[name], v);
  }

  /** A set keeps the shape of the nested dict, so the flat map is still the
      one indexing would build: the store stays valid. */
  lemma SetKeepsShape(s: Store, name: Key, v: real)
    requires Valid(s) && name in s.index
    ensures Set(s, name, v).Ok?
    ensures SameShape(s.params, Set(s, name, v).value.params)
    ensures Valid(Set(s, name, v).value)
  {
    var route := s.index[name];
    IndexSound(s.params, name);
    var p2 := Set(s, name, v).value.params;
    PutKeepsShape(s.params, route, v);
    SameShapeWellFormed(s.params, p2);
    BuildIndexFollowsShape(s.params, p2);
  }

  /** A set changes only the leaf at the name's route: any route that is not
      a prefix of it (so every other leaf, and everything below the leaf)
      reads exactly as before. */
  lemma SetFrame(s: Store, name: Key, v: real, p: Route)
    requires Valid(s) && name in s.index
    requires |p| >= 1 && !IsPrefix(p, s.index[name])
    ensures Set(s, name, v).Ok?
    ensures ReadPath(Set(s, name, v).value.params, p) == ReadPath(s.params, p)
  {
    var route := s.index[name];
    IndexSound(s.params, name);
    SetSucceeds(s, name, v);
    var p2 := Put(s.params, route, v).value;
    assert Set(s, name, v) == Ok(Store(p2, s.index));
    PutFrame(s.params, route, v, p);
    ReaderMatchesWalk(s.params, p);
    ReaderMatchesWalk(p2, p);
  }

  /** Setting one name never changes what any other name reads, indexed or
      not. */
  lemma SetLeavesOtherNames(s: Store, name: Key, v: real, other: Key)
    requires Valid(s) && name in s.index && other != name
    ensures Set(s, name, v).Ok? && Get(Set(s, name, v).value, other) == Get(s, other)
  {
    if other in s.index {
      var r1 := s.index[name];
      var r2 := s.index[other];
      IndexSound(s.params, name);
      IndexSound(s.params, other);
      if IsPrefix(r2, r1) {
        if r2 != r1 {
          BelowLeafFails(s.params, r2, r1);
        }
        assert false;
      }
      SetFrame(s, name, v, r2);
    }
  }

  // ---------------------------------------------------------------------------
  // Construction with overrides.

  /** The value the last override of `name` supplies, if any. */
  function LastOverride(overrides: seq<(Key, real)>, name: Key): (r: Option<real>)
    ensures r.None? <==> forall i :: 0 <= i < |overrides| ==> overrides[i].0 != name
    ensures r.Some? ==> exists i :: && 0 <= i < |overrides| && overrides[i] == (name, r.value)
                                    && forall j :: i < j < |overrides| ==> overrides[j].0 != name
    decreases |overrides|
  {
    if |overrides| == 0 then None
    else if overrides[|overrides| - 1].0 == name then Some(overrides[|overrides| - 1].1)
    else LastOverride(overrides[..|overrides| - 1], name)
  }

  /** What `name` reads once `overrides` have been applied to the store
      `base` holds: the last override's value, or the default. */
  function AfterOverrides(base: Store, overrides: seq<(Key, real)>, name: Key): Result<Node, StoreError> {
    match LastOverride(overrides, name)
    case Some(v) => Ok(Leaf(v))
    case None => Get(base, name)
  }

  /** Every indexed name of `s` reads as the overrides say. */
  ghost predicate ReflectsOverrides(s: Store, base: Store, overrides: seq<(Key, real)>) {
    forall name :: name in s.index ==> Get(s, name) == AfterOverrides(base, overrides, name)
  }

  /** The state of the override loop after its first `i` turns: the store is
      valid over the base's map, every override so far named an indexed
      parameter, and the store reflects exactly those overrides. */
  ghost predicate Applied(s: Store, base: Store, overrides: seq<(Key, real)>, i: nat) {
    && i <= |overrides|
    && Valid(s) && s.index == base.index
    && (forall j :: 0 <= j < i ==> overrides[j].0 in base.index)
    && ReflectsOverrides(s, base, overrides[..i])
  }

  /** One turn of the override loop: setting an indexed name keeps the store
      valid and extends the overrides it reflects by that one pair. */
  lemma OverrideStep(s: Store, base: Store, overrides: seq<(Key, real)>, i: nat)
    requires Applied(s, base, overrides, i) && i < |overrides| && overrides[i].0 in s.index
    ensures Set(s, overrides[i].0, overrides[i].1).Ok?
    ensures Applied(Set(s, overrides[i].0, overrides[i].1).value, base, overrides, i + 1)
  {
    var (name, v) := overrides[i];
    var next := Set(s, name, v).value;
    var ov := overrides[..i + 1];
    GetAfterSet(s, name, v);
    SetKeepsShape(s, name, v);
    assert ov[..i] == overrides[..i] && ov[i] == (name, v);
    forall other | other in next.index
      ensures Get(next, other) == AfterOverrides(base, ov, other)
    {
      if other != name {
        SetLeavesOtherNames(s, name, v, other);
      }
    }
  }

  /** The constructor: load the defaults, build the map, then apply each
      override in turn through `set_param`. Construction fails when indexing
      fails or an override names an unindexed parameter. */
  method Construct(defaults: Node, overrides: seq<(Key, real)>) returns (r: Result<Store, StoreError>)
    requires WellFormed(defaults)
    ensures r.Ok? <==>
      (BuildIndex(defaults).Ok? && forall i :: 0 <= i < |overrides| ==> overrides[i].0 in BuildIndex(defaults).value)
    ensures r.Ok? ==> Valid(r.value) && r.value.index == BuildIndex(defaults).value
    // a dict that cannot be indexed fails first; otherwise the first
    // override naming an unindexed parameter fails with its name
    ensures BuildIndex(defaults).Err? ==> r == Err(NotIterable)
    ensures BuildIndex(defaults).Ok? && r.Err? ==>
      exists i :: && 0 <= i < |overrides| && overrides[i].0 !in BuildIndex(defaults).value
                  && r.error == UnknownParameter(overrides[i].0)
                  && forall j :: 0 <= j < i ==> overrides[j].0 in BuildIndex(defaults).value
    ensures r.Ok? ==> forall name :: name in r.value.index ==>
      Get(r.value, name) ==
        match LastOverride(overrides, name)
        case Some(v) => Ok(Leaf(v))
        case None => Get(Store(defaults, r.value.index), name)
  {
    var created := Create(defaults);
    if created.Err? {
      return Err(created.error);
    }
    var base := created.value;
    var s := base;
    var i := 0;
    assert Applied(s, base, overrides, 0);
    while i < |overrides|
      invariant Applied(s, base, overrides, i)
    {
      if overrides[i].0 !in s.index {
        return Err(UnknownParameter(overrides[i].0));
      }
      OverrideStep(s, base, overrides, i);
      s := Set(s, overrides[i].0, overrides[i].1).value;
      i := i + 1;
    }
    assert overrides[..i] == overrides;
    return Ok(s);
  }
}

=== FILE: param_tree.dfy ===
/** The nested parameter dictionary (category -> name -> value) owned by the
    simulation base class, and the two ways it is walked along a route of keys:
    the recursive reader `_get_param_from_map` and the iterative writer
    `_set_param_from_map` of src/simulation.py. */
module ParamTree {
  import opened Outcomes

  type Key = string
  type Route = seq<Key>

  /** A configuration value: a numeric leaf or a dict. A dict's entries are
      listed in the dict's iteration order, which the index builder follows. */
  datatype Node = Leaf(value: real) | Branch(entries: seq<Entry>)
  datatype Entry = Entry(key: Key, child: Node)

  /** Why an operation on the store fails (each is a Python exception). */
  datatype StoreError =
    | UnknownParameter(name: Key)  // KeyError on the flat parameter map
    | MissingKey(key: Key)         // KeyError inside a nested dict
    | NotSubscriptable             // TypeError: subscripting or assigning into a number
    | EmptyRoute                   // reader recurses without end, writer raises IndexError
    | NotIterable                  // TypeError: the index builder iterates a number
    | NotAScalar                   // a numeric parameter resolves to a dict

  /** A Python dict never holds the same key twice. */
  ghost predicate DistinctKeys(es: seq<Entry>) {
    forall i, j :: 0 <= i < j < |es| ==> es[i].key != es[j].key
  }

  ghost predicate WellFormed(n: Node)
    decreases n
  {
    match n
    case Leaf(_) => true
    case Branch(es) => DistinctKeys(es) && forall i :: 0 <= i < |es| ==> WellFormed(es[i].child)
  }

  /** Position of key `k` among the entries, or |es| when it is absent. */
  function Find(es: seq<Entry>, k: Key): (i: nat)
    ensures i <= |es|
    ensures i < |es| ==> es[i].key == k
    ensures forall j :: 0 <= j < i ==> es[j].key != k
  {
    if |es| == 0 then 0
    else if es[0].key == k then 0
    else 1 + Find(es[1..], k)
  }

  lemma FindDistinct(es: seq<Entry>, i: nat)
    requires DistinctKeys(es) && i < |es|
    ensures Find(es, es[i].key) == i
  {
  }

  /** `d[k] = c` on the entry list: the value of an existing key is replaced
      in place; a new key is placed last (the store only ever writes existing
      keys). No other key moves or changes. */
  function Assign(es: seq<Entry>, k: Key, c: Node): (r: seq<Entry>)
    ensures |es| <= |r|
    ensures Find(r, k) < |r| && r[Find(r, k)] == Entry(k, c)
    ensures forall k' :: k' != k && Find(es, k') < |es| ==> Find(r, k') == Find(es, k') && r[Find(r, k')] == es[Find(es, k')]
    ensures forall k' :: k' != k && Find(es, k') == |es| ==> Find(r, k') == |r|
    ensures Find(es, k) < |es| ==> |r| == |es|
    ensures Find(es, k) == |es| ==> |r| == |es| + 1 && Find(r, k) == |es|
    ensures DistinctKeys(es) ==> DistinctKeys(r)
  {
    var i := Find(es, k);
    if i < |es| then
      var r := es[i := Entry(k, c)];
      FindSameKeys(es, r);
      r
    else
      var r := es + [Entry(k, c)];
      FindAppend(es, Entry(k, c));
      r
  }

  lemma {:induction false} FindSameKeys(a: seq<Entry>, b: seq<Entry>)
    requires |a| == |b| && forall i :: 0 <= i < |a| ==> a[i].key == b[i].key
    ensures forall k :: Find(a, k) == Find(b, k)
    decreases |a|
  {
    if |a| > 0 {
      FindSameKeys(a[1..], b[1..]);
    }
  }

  lemma {:induction false} FindAppend(es: seq<Entry>, e: Entry)
    ensures forall k :: Find(es, k) < |es| ==> Find(es + [e], k) == Find(es, k)
    ensures forall k :: Find(es, k) == |es| ==> Find(es + [e], k) == if e.key == k then |es| else |es| + 1
    decreases |es|
  {
    if |es| > 0 {
      assert (es + [e])[1..] == es[1..] + [e];
      FindAppend(es[1..], e);
    }
  }

  /** Python's `d[k]` on one value. */
  function Subscript(n: Node, k: Key): (r: Result<Node, StoreError>)
    ensures r.Ok? ==> n.Branch? && Find(n.entries, k) < |n.entries| && r.value == n.entries[Find(n.entries, k)].child
    ensures n.Leaf? ==> r == Err(NotSubscriptable)
    ensures n.Branch? && Find(n.entries, k) == |n.entries| ==> r == Err(MissingKey(k))
  {
    match n
    case Leaf(_) => Err(NotSubscriptable)
    case Branch(es) =>
      var i := Find(es, k);
      if i < |es| then Ok(es[i].child) else Err(MissingKey(k))
  }

  /** The recursive reader: the value at a route is the value at the route
      without its last key, subscripted by that key. */
  function ReadPath(root: Node, route: Route): Result<Node, StoreError>
    decreases |route|
  {
    if |route| == 0 then Err(EmptyRoute)
    else if |route| == 1 then Subscript(root, route[0])
    else
      match ReadPath(root, route[..|route| - 1])
      case Err(e) => Err(e)
      case Ok(d) => Subscript(d, route[|route| - 1])
  }

  /** The writer's loop `for k in keys: d = d[k]`, front to back. */
  function Descend(d: Node, keys: Route): Result<Node, StoreError>
    decreases |keys|
  {
    if |keys| == 0 then Ok(d)
    else
      match Subscript(d, keys[0])
      case Err(e) => Err(e)
      case Ok(c) => Descend(c, keys[1..])
  }

  /** The writer: walk all keys but the last, then assign at the last one. */
  function WritePath(root: Node, route: Route, v: real): Result<Node, StoreError>
  {
    if |route| == 0 then Err(EmptyRoute) else Put(root, route, v)
  }

  function Put(d: Node, route: Route, v: real): Result<Node, StoreError>
    requires |route| >= 1
    decreases |route|
  {
    if |route| == 1 then
      match d
      case Leaf(_) => Err(NotSubscriptable)
      case Branch(es) => Ok(Branch(Assign(es, route[0], Leaf(v))))
    else
      match Subscript(d, route[0])
      case Err(e) => Err(e)
      case Ok(c) =>
        match Put(c, route[1..], v)
        case Err(e) => Err(e)
        case Ok(c2) => Ok(Branch(Assign(d.entries, route[0], c2)))
  }

  predicate IsPrefix(a: Route, b: Route) {
    |a| <= |b| && b[..|a|] == a
  }

  ghost predicate IsLeafAt(root: Node, route: Route) {
    Descend(root, route).Ok? && Descend(root, route).value.Leaf?
  }

  /** Same keys in the same order at every level, leaves where leaves were. */
  ghost predicate SameShape(a: Node, b: Node)
    decreases a
  {
    match a
    case Leaf(_) => b.Leaf?
    case Branch(es) =>
      && b.Branch?
      && |es| == |b.entries|
      && forall i :: 0 <= i < |es| ==> es[i].key == b.entries[i].key && SameShape(es[i].child, b.entries[i].child)
  }

  // ---------------------------------------------------------------------------
  // The reader and the writer walk the same route.

  lemma {:induction false} DescendSnoc(d: Node, keys: Route, k: Key)
    ensures Descend(d, keys + [k]) ==
      match Descend(d, keys)
      case Err(e) => Err(e)
      case Ok(n) => Subscript(n, k)
    decreases |keys|
  {
    if |keys| == 0 {
      assert keys + [k] == [k];
      assert [k][1..] == [];
    } else {
      assert (keys + [k])[1..] == keys[1..] + [k];
      match Subscript(d, keys[0])
      case Err(e) =>
      case Ok(c) => DescendSnoc(c, keys[1..], k);
    }
  }

  /** The recursive reader agrees with the writer's front-to-back walk on every
      non-empty route, errors included. */
  lemma {:induction false} ReaderMatchesWalk(root: Node, route: Route)
    requires |route| >= 1
    ensures ReadPath(root, route) == Descend(root, route)
    decreases |route|
  {
    if |route| == 1 {
      assert route[1..] == [];
    } else {
      var init := route[..|route| - 1];
      ReaderMatchesWalk(root, init);
      DescendSnoc(root, init, route[|route| - 1]);
      assert init + [route[|route| - 1]] == route;
    }
  }

  lemma {:induction false} DescendAppend(d: Node, a: Route, b: Route)
    ensures Descend(d, a + b) ==
      match Descend(d, a)
      case Err(e) => Err(e)
      case Ok(n) => Descend(n, b)
    decreases |a|
  {
    if |a| == 0 {
      assert a + b == b;
    } else {
      assert (a + b)[1..] == a[1..] + b;
      match Subscript(d, a[0])
      case Err(e) =>
      case Ok(c) => DescendAppend(c, a[1..], b);
    }
  }

  /** Nothing lies below a leaf: any longer route through it fails. */
  lemma BelowLeafFails(root: Node, a: Route, b: Route)
    requires IsLeafAt(root, a) && IsPrefix(a, b) && a != b
    ensures Descend(root, b).Err?
  {
    var rest := b[|a|..];
    assert a + rest == b;
    DescendAppend(root, a, rest);
  }

  /** The writer fails exactly when the loop over all keys but the last fails,
      or ends on a number that cannot take the final assignment. */
  lemma {:induction false} WriterFailsLikeLoop(d: Node, route: Route, v: real)
    requires |route| >= 1
    ensures var walk := Descend(d, route[..|route| - 1]);
      && (WritePath(d, route, v).Err? <==> walk.Err? || walk.value.Leaf?)
      && (walk.Err? ==> WritePath(d, route, v) == Err(walk.error))
      && (walk.Ok? && walk.value.Leaf? ==> WritePath(d, route, v) == Err(NotSubscriptable))
    decreases |route|
  {
    if |route| == 1 {
      assert route[..0] == [];
    } else {
      assert route[..|route| - 1][1..] == route[1..][..|route[1..]| - 1];
      match Subscript(d, route[0])
      case Err(e) =>
      case Ok(c) => WriterFailsLikeLoop(c, route[1..], v);
    }
  }

  // ---------------------------------------------------------------------------
  // What a successful write does.

  lemma {:induction false} PutThenDescend(d: Node, route: Route, v: real)
    requires |route| >= 1 && Put(d, route, v).Ok?
    ensures Descend(Put(d, route, v).value, route) == Ok(Leaf(v))
    decreases |route|
  {
    var d2 := Put(d, route, v).value;
    if |route| == 1 {
      assert route[1..] == [];
    } else {
      var c := Subscript(d, route[0]).value;
      PutThenDescend(c, route[1..], v);
    }
  }

  /** Round trip: reading a route right after writing `v` there yields `v`. */
  lemma ReadAfterWrite(root: Node, route: Route, v: real)
    requires WritePath(root, route, v).Ok?
    ensures ReadPath(WritePath(root, route, v).value, route) == Ok(Leaf(v))
  {
    PutThenDescend(root, route, v);
    ReaderMatchesWalk(WritePath(root, route, v).value, route);
  }

  /** A write changes nothing outside its route: every route that is not a
      prefix of the written one reads as before, provided the written route
      held a leaf or the other route does not pass through it. */
  lemma {:induction false} PutFrame(d: Node, route: Route, v: real, p: Route)
    requires |route| >= 1 && Put(d, route, v).Ok?
    requires !IsPrefix(p, route)
    requires IsPrefix(route, p) ==> IsLeafAt(d, route)
    ensures Descend(Put(d, route, v).value, p) == Descend(d, p)
    decreases |route|
  {
    var d2 := Put(d, route, v).value;
    assert |p| >= 1;
    var k := p[0];
    if k != route[0] {
      assert Subscript(d2, k) == Subscript(d, k);
    } else if |route| == 1 {
      assert p[..1] == route;
      var c := Subscript(d, k).value;
      assert route[1..] == [];
      assert IsPrefix(route, p);
      assert Descend(d, route) == Descend(c, route[1..]);
      assert c.Leaf?;
      assert Subscript(d2, k) == Ok(Leaf(v));
    } else {
      var c := Subscript(d, k).value;
      assert Subscript(d2, k) == Ok(Put(c, route[1..], v).value);
      assert !IsPrefix(p[1..], route[1..]);
      if IsPrefix(route[1..], p[1..]) {
        assert p[..|route|] == [k] + p[1..][..|route| - 1];
        assert route == [k] + route[1..];
        assert IsPrefix(route, p);
      }
      PutFrame(c, route[1..], v, p[1..]);
    }
  }

  lemma {:induction false} SameShapeReflexive(n: Node)
    ensures SameShape(n, n)
    decreases n
  {
    match n
    case Leaf(_) =>
    case Branch(es) =>
      forall i | 0 <= i < |es|
        ensures SameShape(es[i].child, es[i].child)
      {
        SameShapeReflexive(es[i].child);
      }
  }

  /** Writing a number over a leaf keeps the shape of the whole dict. */
  lemma {:induction false} PutKeepsShape(d: Node, route: Route, v: real)
    requires |route| >= 1 && Put(d, route, v).Ok? && IsLeafAt(d, route)
    ensures SameShape(d, Put(d, route, v).value)
    decreases |route|
  {
    var d2 := Put(d, route, v).value;
    assert Descend(d, route).Ok?;
    assert Subscript(d, route[0]).Ok?;
    var es := d.entries;
    var i := Find(es, route[0]);
    assert i < |es|;
    var c2 := if |route| == 1 then Leaf(v) else Put(es[i].child, route[1..], v).value;
    assert d2.entries == es[i := Entry(route[0], c2)];
    if |route| > 1 {
      PutKeepsShape(es[i].child, route[1..], v);
    } else {
      assert route[1..] == [];
    }
    forall j | 0 <= j < |es|
      ensures es[j].key == d2.entries[j].key && SameShape(es[j].child, d2.entries[j].child)
    {
      if j != i {
        SameShapeReflexive(es[j].child);
      }
    }
  }

  lemma {:induction false} SameShapeWellFormed(a: Node, b: Node)
    requires SameShape(a, b) && WellFormed(a)
    ensures WellFormed(b)
    decreases a
  {
    match a
    case Leaf(_) =>
    case Branch(es) =>
      forall i | 0 <= i < |es|
        ensures WellFormed(b.entries[i].child)
      {
        SameShapeWellFormed(es[i].child, b.entries[i].child);
      }
  }
}
